=== FILE: README.md ===
# Booking core of the tutoring-site backend, in Dafny

This project models the scheduling core of a single-teacher booking backend, `bb.py`.
The core has three parts:

- **Availability engine** (`generate_available_slots`, with `time_to_minutes` and
  `minutes_to_time`). It returns the half-hour start times of a day, 08:00 to 19:30,
  on which a new lesson of a given length fits. A start is dropped when its own end
  passes 20:00. It is also dropped when its effective interval overlaps a booked row.
  Only a "Student Location" lesson is widened, by 30 minutes of travel on each side,
  and the lower end is clamped at midnight. Booked rows are never widened.
- **Appointments table** (`get_appointments_for_date`, `is_slot_available`,
  `save_appointment`). It is an in-memory sequence of rows under the table's
  `UNIQUE(date, time, duration)` constraint. Each operation is one atomic step.
- **Submission** (`submit_appointment`). The field checks produce a set of error keys.
  Next comes the "is the slot free" pre-check, then the insert. A request with any
  field error never reaches the store.

Modules: `Maybe` (the option type), `Clock` (times of day), `BookingStore` (the
table), `Availability` (the engine), `AvailabilityLaws` (properties that relate
several queries), and `Submission` (validation and the submit flow).

The engine takes the day's booked rows as a parameter instead of reading them from the
database. A booked row whose time does not parse makes Python raise `ValueError`. The
model returns `None` for that case. The booking loop stops at the first overlap, so a
row that does not parse raises only when the loop reaches it before any overlap.
The laws that compare queries (a wider buffer, more bookings) are stated for days
whose booked times all parse. With an unparsable row, the session type alone can
decide whether the day answers with a list or raises: a "Student Location" query
may hit a booking before reaching the bad row where an "Online" query does not.
`time_to_minutes` is modelled as Python's
`split(":")` followed by reading two non-empty ASCII digit runs, each of at
most 4300 digits: CPython's default `int()` limit (3.11 onwards, and the 2022
security releases of 3.7 to 3.10) raises `ValueError` on a longer run.

## Model

| member | source | states |
|---|---|---|
| `Clock.ParseTime` | bb.py:320-322 | `time_to_minutes`: a string without a colon raises; a well-formed "HH:MM" reads as (10 * H1 + H2) * 60 + 10 * M1 + M2 from its four digits |
| `Clock.FormatTime` | bb.py:324-326 | `minutes_to_time`: a minute count below 100 hours is labelled as a well-formed "HH:MM" (two digits, a colon, two digits with the minutes below 60); the round trip back to m is `Clock.ParseFormat` |
| `Clock.ParseTimeAccepts` | bb.py:320-322 | `time_to_minutes` accepts exactly the strings with one colon between two non-empty digit runs of at most 4300 digits each, and yields hours * 60 + minutes |
| `Clock.OverlongHourRejected` | bb.py:320-322 | an hour run longer than 4300 digits makes `time_to_minutes` raise, even with a valid ":00" after it |
| `Clock.ParseFormat` | bb.py:320-326 | round trip: `time_to_minutes(minutes_to_time(m)) == m` for every m whose hour numeral has at most 4300 digits, which includes every m below 6000 and so all of 0 <= m < 1440; for a longer hour numeral, reading back raises |
| `Clock.FormatParse` | bb.py:320-326 | round trip: a well-formed "HH:MM" (minutes below 60) is reproduced exactly by `minutes_to_time(time_to_minutes(t))` |
| `Clock.Pad2` | bb.py:326 | `{:02d}` yields a digit string denoting n, exactly two characters long when n < 100, with no colon |
| `Clock.Decimal` | bb.py:326 | the decimal numeral of n is a digit string denoting n |
| `Clock.JoinSplit` | bb.py:321 | `split(":")` loses nothing: re-joining the pieces with ':' gives the input back |
| `Clock.SplitJoin` | bb.py:321 | splitting colon-free pieces joined by ':' gives the pieces back |
| `Clock.SplitColon` | bb.py:321 | `split(":")` gives at least one piece, and no piece contains a colon |
| `Availability.SessionBuffer` | bb.py:341 | the buffer is 30 exactly when the session type is "Student Location", and 0 otherwise |
| `Availability.Range` | bb.py:335 | `range(lo, hi, 30)`: element i is lo + 30i; it is empty iff lo >= hi; its last element is below hi and within 30 of it |
| `Availability.CandidateStarts` | bb.py:335 | 24 candidates; a minute is a candidate iff it is a multiple of 30 in [08:00, 20:00); strictly ascending |
| `Availability.KeepBookableSpec` | bb.py:343-371 | the candidate loop keeps exactly the bookable candidates, and keeps them in ascending order |
| `Availability.AvailableStarts` | bb.py:344-371 | soundness and completeness: s is returned iff it is a candidate, s + dur <= 20:00, and no booking b has max(0, s - buffer) < b.end and s + dur + buffer > b.start; the result is strictly ascending |
| `Availability.OverlapsBooked` | bb.py:361-368 | the booking loop stops at the first row that overlaps (half-open test) or does not parse. It reports an overlap iff it reaches an overlapping row whose earlier rows all parse and miss. It raises iff it reaches an unparsable row first. It reports no overlap iff every row parses and misses. When every row parses, it reports an overlap iff some booked interval overlaps |
| `Availability.CandidateAvailable` | bb.py:345-371 | a candidate whose raw end passes 20:00 is rejected before any booking is read. Otherwise it is accepted iff the booking loop gets past every row, and it raises iff the loop reaches an unparsable row first. When every booked time parses, it is accepted iff it is bookable |
| `Availability.GenerateAvailableSlots` | bb.py:328-373 | the call raises iff some candidate that fits the day reaches an unparsable row before any overlap. Otherwise it returns the labels of the accepted candidates, in order. When every booked time parses, those are exactly the available starts |
| `Availability.KeepPassableSpec` | bb.py:343-371 | what the candidate loop keeps, whether or not every booked time parses: x is kept iff it is a candidate and accepted (its own end within 20:00 and the scan gets past every row); ascending candidates stay ascending |
| `Availability.CandidateStep` | bb.py:344-371 | one pass of the candidate loop raises iff that candidate raises; otherwise the labels so far grow to the labels of the accepted candidates up to and including this one |
| `Availability.KeepPassableIsKeepBookable` | bb.py:343-371 | when every booked time parses, the candidates the loop accepts are exactly the bookable ones against the booked intervals |
| `Availability.ReadsBack` | bb.py:335-345 | each formatted candidate parses back to its own minute count when its hour numeral fits the `int()` limit, and raises otherwise |
| `AvailabilityLaws.BufferMonotone` | bb.py:352-366 | when every booked time parses: a wider buffer never offers a start that a narrower one withholds |
| `AvailabilityLaws.StudentLocationOffersLess` | bb.py:340-366 | when every booked time parses: the "Student Location" result is a subset of the result for any other session type on the same bookings |
| `AvailabilityLaws.MoreBookingsOfferLess` | bb.py:361-371 | when every booked time parses: with every booked interval still booked, more bookings never make a start available |
| `AvailabilityLaws.AddedBookingOffersLess` | bb.py:361-371 | when every booked time parses: adding one booking never adds an available start |
| `AvailabilityLaws.SessionTypeDecidesRaise` | bb.py:341-368 | with "00:00"/480 and "08:30"/930 booked ahead of an unparsable row, an "Online" half hour at 08:00 raises, while no "Student Location" half hour does |
| `AvailabilityLaws.EmptyDayOffersEveryFit` | bb.py:343-371 | with no bookings, the result is exactly the candidates whose own end is within 20:00, whatever the buffer |
| `AvailabilityLaws.EmptyDayHourLong` | bb.py:335-350 | with no bookings and dur = 60, the result is 08:00, 08:30, ..., 19:00: 23 starts |
| `AvailabilityLaws.EmptyDayHourLongLabels` | bb.py:324-335 | the labels of that result run from "08:00" to "19:00" |
| `AvailabilityLaws.OfferedLabelsReadBack` | bb.py:335-371 | every returned label is a well-formed "HH:MM" that parses back to its start |
| `AvailabilityLaws.PastCloseNeverOffered` | bb.py:348-350 | a start whose raw end passes 20:00 is never returned, whatever the buffer and bookings |
| `AvailabilityLaws.BufferMaySpillPastClose` | bb.py:348-355 | only the raw end is checked against 20:00: a "Student Location" hour at 19:00 is offered though its buffer runs past 20:00 |
| `AvailabilityLaws.TouchingIsNotConflict` | bb.py:366 | with buffer 0, a slot ending exactly at a booking's start, or starting exactly at its end, is kept |
| `AvailabilityLaws.BookedStudentLocationNotWidened` | bb.py:341-366 | only the candidate is widened: with a "Student Location" lesson booked from 10:00 for an hour, an "Online" half hour is still offered at 09:30 and at 11:00 |
| `AvailabilityLaws.OverlapStopsBeforeUnparsableRow` | bb.py:361-368 | with an hour booked from 10:00 and then a row whose time is "xx", testing 10:00 to 10:30 stops at the overlap on the first row and does not raise |
| `AvailabilityLaws.WholeDayBookingShieldsLaterRows` | bb.py:343-373 | with "00:00" booked for 1440 minutes ahead of an unparsable row, no candidate raises and none is accepted, so the day's answer is the empty list |
| `AvailabilityLaws.OverlongRowRaises` | bb.py:361-366 | a stored row whose hour run is longer than 4300 digits (4301 ones followed by ":00", say) does not parse, and every candidate whose own end stays within 20:00 raises on it, so the day's query is an error |
| `AvailabilityLaws.TenOClockHour` | bb.py:364-365 | the row "10:00" of 60 minutes occupies [600, 660) |
| `AvailabilityLaws.OnlineAroundTenOClock` | bb.py:352-371 | with [10:00, 11:00) booked, a 30-minute "Online" query keeps 09:30 and 11:00 and drops 10:00 and 10:30 |
| `AvailabilityLaws.StudentLocationAroundTenOClock` | bb.py:341-371 | the same query for "Student Location" drops 09:30 and 11:00 and keeps 09:00 and 11:30 |
| `BookingStore.EmptyStore` | bb.py:31-43 | a new table is empty and satisfies the invariant (triples distinct, ids increasing) |
| `BookingStore.Taken` | bb.py:99-103 | the query finds a row iff some row has exactly that (date, time, duration) |
| `BookingStore.ListForDate` | bb.py:55-62 | the day's rows are exactly the stored rows with that date, each listed as often as it is stored |
| `BookingStore.IsSlotAvailable` | bb.py:95-103 | true iff no stored row matches date, time and duration all three |
| `BookingStore.Save` | bb.py:69-91 | the corrected insert of the Findings row. The insert fails with "already booked" iff the triple is present and the lesson type is given. It fails generically iff the lesson type is missing. Otherwise it appends exactly the new row with the next id. The invariant is preserved |
| `BookingStore.SaveAsWritten` | bb.py:87-88 | as written, every integrity error, including a missing lesson type, is answered "already booked" |
| `BookingStore.MissingLessonTypeReportedAsTaken` | bb.py:73-88 | a request with no lesson type, for a free slot, is told the slot is already booked |
| `BookingStore.SaveReservesOnlyItsSlot` | bb.py:42 | after a save its triple is taken, and the availability of every other triple is unchanged |
| `BookingStore.SecondSaveOfSameSlotIsTaken` | bb.py:42 | once one insert for a triple is admitted, a second one for the same triple is rejected as taken |
| `BookingStore.OtherDurationAdmitted` | bb.py:42 | uniqueness is on the exact triple: the same date and time with another duration is admitted |
| `BookingStore.SavedIsListed` | bb.py:55-86 | a saved row is listed back for its date with every submitted field unchanged |
| `Submission.LeadingSpaces` | bb.py:422 | counts the leading whitespace run: all of it is whitespace, and the next character is not |
| `Submission.TrailingSpaces` | bb.py:422 | counts the trailing whitespace run: all of it is whitespace, and the character before it is not |
| `Submission.Strip` | bb.py:422 | `strip()` gives the slice between leading and trailing whitespace; it starts and ends with non-whitespace; it is empty iff the name is all whitespace |
| `Submission.Validate` | bb.py:424-432 | `duration` is an error iff the duration is not 30 or 60; `datetime` iff date or time is empty; `contact` iff both email and phone are empty; `name` iff the name is all whitespace |
| `Submission.Submit` | bb.py:413-473 | the endpoint as written. Any field error is answered with exactly those errors and no store change. A taken slot is answered by the pre-check. A valid request with no lesson type, for a free slot, is answered "already booked" under `database`. Otherwise the one new row holds the stripped name and the submitted fields. The store changes only on success, and the invariant is preserved |
| `Submission.SubmitCorrected` | bb.py:413-473 | the same endpoint on the corrected insert: identical, except that a valid request with no lesson type, for a free slot, gets the generic storage failure |
| `Submission.SubmitCorrectedAgrees` | bb.py:437-473 | whenever a lesson type is given, the endpoint as written and the corrected one give the same answer and the same store |
| `Submission.MissingLessonTypeAnsweredAsBooked` | bb.py:413-473 | a valid request with no lesson type, for a free slot on an empty table, is told the slot is already booked; the corrected endpoint reports a storage failure |
| `Submission.SameSlotOneWinner` | bb.py:437-455 | of two valid submissions for the same triple, once the first is booked the second is answered "slot already booked" and changes nothing |
| `Submission.FreeSlotIsBooked` | bb.py:437-467 | a valid submission with a lesson type, for a free triple, is booked |

## Left out

- Flask routing, JSON parsing and responses, serving pages and images: transport only. The model's `Response` stands for the JSON body, and a missing or non-integer `duration` becomes `None`. Python also accepts a float duration equal to 30 or 60, such as 30.0; the model does not. Non-string JSON values for the text fields are not modelled.
- The `date`/`d` checks of the `/appointments` route: the engine gets its inputs directly.
- SQLite connection handling, table creation and logging. The table is an in-memory sequence.
- `created_at`: it is a server clock value and is not modelled.
- The fail-open paths: `get_appointments_for_date` returns `[]` on any read error, and `is_slot_available` returns `False` on a read error. These depend on I/O failures that the in-memory table cannot have. The generic `except Exception` path of `save_appointment` (bb.py:89-91) is never taken in this model, because the in-memory insert has no I/O failure; a missing lesson type takes the `IntegrityError` path. Only the corrected `BookingStore.Save` and `Submission.SubmitCorrected` answer a missing lesson type with the generic failure.
- Concurrent submissions. Each save is one atomic step, so the check-then-insert race cannot arise. A `Submit` that passes the pre-check never meets the uniqueness failure. In the source that failure would come back under the `database` key.
- Email and calendar generation (`create_ics_file`, `create_booking_email`, `send_booking_email`). These are MIME/SMTP I/O plus clock and `uuid4` calls. The response does not depend on whether the email was sent.
- `appointments_sample` is unused. Config values are constants only.
- `Clock.ParseTime` does not model the lenient `int()` forms: surrounding whitespace, a sign, `_` separators and non-ASCII digits. Python accepts them; the model returns `None`. Its digit limit is fixed at CPython's default of 4300. `sys.set_int_max_str_digits` and `PYTHONINTMAXSTRDIGITS` can change or disable that limit, and Pythons older than the 2022 security releases have none. Under those settings a longer run parses, and the model returns `None` for it.
- `Clock.FormatTime` is defined for minute counts >= 0 only. The engine never formats a negative count. CPython also refuses to format an hour of more than 4300 digits with `{:02d}`, but the model writes a label for every count. The engine formats only counts below 1440.
- `Submission.IsSpace` uses Python's `str.isspace` character list. The `name` field is assumed to be a string.
- Stored durations are arbitrary integers. Only `submit_appointment` limits them to 30 or 60; the table itself does not.

## Findings

| source | as written | input that shows it | evidently intended | confidence | as-written member | corrected member |
|---|---|---|---|---|---|---|
| bb.py:87-88 | `except sqlite3.IntegrityError` answers "This time slot is already booked" for every integrity error. The `NOT NULL` violation from a missing `lesson_type` is one of them, and `submit_appointment` never checks that field | a submission with valid name, contact, date "2025-09-28", time "10:00" and duration 60, but no `lesson_type`, on a free slot | only a violated `UNIQUE(date, time, duration)` constraint is reported as a taken slot; other insert failures get the generic "Failed to save" message | not executed; high (SQLite checks `NOT NULL` before uniqueness and raises `IntegrityError` for both) | `BookingStore.SaveAsWritten`, `BookingStore.MissingLessonTypeReportedAsTaken`, `Submission.Submit`, `Submission.MissingLessonTypeAnsweredAsBooked` | `BookingStore.Save`, `Submission.SubmitCorrected` |

=== FILE: availability.dfy ===
/** `generate_available_slots`: the half-hour start times of a day on which a
    new booking of a given duration and session type fits. Candidates run from
    08:00 to 19:30; one is dropped when its own end passes 20:00, or when its
    effective interval overlaps the interval of a booked row. Only a
    "Student Location" candidate is widened, by 30 minutes of travel on each
    side; booked rows are never widened. */
module Availability {
  import opened Maybe
  import opened Clock
  import opened BookingStore

  const OpenMinute: int := 8 * 60
  const CloseMinute: int := 20 * 60
  const SlotStep: int := 30
  const TravelBuffer: nat := 30
  const StudentLocation: string := "Student Location"

  /** A half-open interval of minutes, [start, end). */
  datatype Span = Span(start: int, end: int)

  /** The overlap test of the availability loop: strict on both sides, so
      intervals that merely touch do not overlap. */
  predicate Overlaps(a: Span, b: Span) {
    a.start < b.end && a.end > b.start
  }

  function Max0(x: int): int {
    if x < 0 then 0 else x
  }

  /** The travel buffer a session type reserves on each side of its slot. */
  function SessionBuffer(sessionType: string): (b: nat)
    ensures b == TravelBuffer <==> sessionType == StudentLocation
    ensures b == 0 <==> sessionType != StudentLocation
  {
    if sessionType == StudentLocation then TravelBuffer else 0
  }

  /** The interval a candidate would occupy: widened by `buffer` on both sides,
      its lower end clamped at midnight. */
  function Effective(s: int, dur: int, buffer: nat): Span {
    Span(Max0(s - buffer), s + dur + buffer)
  }

  /** Python's `range(lo, hi, 30)`. */
  function Range(lo: nat, hi: int): (r: seq<nat>)
    ensures forall i :: 0 <= i < |r| ==> r[i] == lo + SlotStep * i
    ensures |r| == 0 <==> lo >= hi
    ensures |r| > 0 ==> r[|r| - 1] < hi <= r[|r| - 1] + SlotStep
    decreases hi - lo
  {
    if lo >= hi then [] else [lo] + Range(lo + SlotStep, hi)
  }

  /** Every half hour from 08:00 up to but excluding 20:00, as minutes. */
  function CandidateStarts(): (r: seq<nat>)
    ensures |r| == 24
    ensures forall x :: x in r <==> OpenMinute <= x < CloseMinute && x % SlotStep == 0
    ensures StrictlyIncreasing(r)
  {
    var r := Range(OpenMinute, CloseMinute);
    assert forall x :: OpenMinute <= x < CloseMinute && x % SlotStep == 0 ==> r[(x - OpenMinute) / SlotStep] == x;
    r
  }

  predicate StrictlyIncreasing(s: seq<int>) {
    forall i, j :: 0 <= i < j < |s| ==> s[i] < s[j]
  }

  /** No booked interval overlaps `e`. */
  predicate Clear(e: Span, booked: seq<Span>) {
    forall i :: 0 <= i < |booked| ==> !Overlaps(e, booked[i])
  }

  /** No booked interval overlaps the candidate's effective interval. */
  predicate Free(s: int, dur: int, buffer: nat, booked: seq<Span>) {
    Clear(Effective(s, dur, buffer), booked)
  }

  /** A candidate is offered when its own end stays within 20:00 and it is free. */
  predicate Bookable(s: int, dur: int, buffer: nat, booked: seq<Span>) {
    s + dur <= CloseMinute && Free(s, dur, buffer, booked)
  }

  /** The bookable candidates among `cands`, in their order. */
  function KeepBookable(cands: seq<nat>, dur: int, buffer: nat, booked: seq<Span>): (r: seq<nat>)
    ensures |r| <= |cands|
  {
    if cands == [] then []
    else
      var kept := KeepBookable(cands[..|cands| - 1], dur, buffer, booked);
      var last := cands[|cands| - 1];
      if Bookable(last, dur, buffer, booked) then kept + [last] else kept
  }

  /** Filtering keeps exactly the bookable candidates and keeps them in order. */
  lemma {:induction false} KeepBookableSpec(cands: seq<nat>, dur: int, buffer: nat, booked: seq<Span>)
    ensures forall x :: x in KeepBookable(cands, dur, buffer, booked) <==> x in cands && Bookable(x, dur, buffer, booked)
    ensures StrictlyIncreasing(cands) ==> StrictlyIncreasing(KeepBookable(cands, dur, buffer, booked))
  {
    if cands != [] {
      var init := cands[..|cands| - 1];
      var last := cands[|cands| - 1];
      assert cands == init + [last];
      KeepBookableSpec(init, dur, buffer, booked);
      var kept := KeepBookable(init, dur, buffer, booked);
      if Bookable(last, dur, buffer, booked) {
        IncreasingSnoc(cands, kept);
      }
    }
  }

  /** Appending to a filtered prefix the next element of an increasing sequence keeps it increasing. */
  lemma IncreasingSnoc(cands: seq<nat>, kept: seq<nat>)
    requires |cands| > 0
    requires forall x :: x in kept ==> x in cands[..|cands| - 1]
    requires StrictlyIncreasing(cands[..|cands| - 1]) ==> StrictlyIncreasing(kept)
    ensures StrictlyIncreasing(cands) ==> StrictlyIncreasing(kept + [cands[|cands| - 1]])
  {
    if StrictlyIncreasing(cands) {
      var init, last := cands[..|cands| - 1], cands[|cands| - 1];
      assert StrictlyIncreasing(init);
      forall x | x in kept ensures x < last {
        var j :| 0 <= j < |init| && init[j] == x;
      }
      var r := kept + [last];
      forall i, j | 0 <= i < j < |r| ensures r[i] < r[j] {
        if j < |kept| {
        } else {
          assert r[i] in kept;
        }
      }
    }
  }

  /** The available start times, in minutes, for `dur` minutes with `buffer`
      minutes of travel against the booked intervals. Sound and complete: a
      start is returned exactly when it is a half-hour candidate within the
      day, its own end is within 20:00, and no booked interval overlaps its
      clamped, widened interval. */
  function AvailableStarts(dur: int, buffer: nat, booked: seq<Span>): (r: seq<nat>)
    ensures forall x :: x in r <==>
      && OpenMinute <= x < CloseMinute && x % SlotStep == 0
      && x + dur <= CloseMinute
      && forall i :: 0 <= i < |booked| ==>
           !(Max0(x - buffer) < booked[i].end && x + dur + buffer > booked[i].start)
    ensures StrictlyIncreasing(r)
  {
    KeepBookableSpec(CandidateStarts(), dur, buffer, booked);
    KeepBookable(CandidateStarts(), dur, buffer, booked)
  }

  /** Every booked row's time parses. */
  predicate AllTimesParse(booked: seq<Appointment>) {
    forall i :: 0 <= i < |booked| ==> ParseTime(booked[i].time).Some?
  }

  /** The interval a booked row occupies, unwidened. */
  function SpanOf(a: Appointment): Span
    requires ParseTime(a.time).Some?
  {
    var start := ParseTime(a.time).value;
    Span(start, start + a.duration)
  }

  function BookedSpans(booked: seq<Appointment>): (r: seq<Span>)
    requires AllTimesParse(booked)
    ensures |r| == |booked|
    ensures forall i :: 0 <= i < |booked| ==> r[i] == SpanOf(booked[i])
  {
    if booked == [] then [] else [SpanOf(booked[0])] + BookedSpans(booked[1..])
  }

  /** `minutes_to_time` applied to each element. */
  function FormatAll(xs: seq<nat>): (r: seq<string>)
    ensures |r| == |xs|
  {
    if xs == [] then [] else FormatAll(xs[..|xs| - 1]) + [FormatTime(xs[|xs| - 1])]
  }

  /** Element `i` of the formatted list is element `i` formatted. */
  lemma {:induction false} FormatAllAt(xs: seq<nat>, i: nat)
    requires i < |xs|
    ensures FormatAll(xs)[i] == FormatTime(xs[i])
  {
    if i < |xs| - 1 {
      FormatAllAt(xs[..|xs| - 1], i);
    }
  }

  lemma FormatAllSnoc(xs: seq<nat>, x: nat)
    ensures FormatAll(xs + [x]) == FormatAll(xs) + [FormatTime(x)]
  {
    assert (xs + [x])[..|xs|] == xs;
  }

  /** The scan of the booked rows gets past the first `k` of them: each parses
      and none overlaps `e`. */
  predicate ScanPasses(e: Span, booked: seq<Appointment>, k: nat)
    requires k <= |booked|
  {
    forall i :: 0 <= i < k ==> ParseTime(booked[i].time).Some? && !Overlaps(e, SpanOf(booked[i]))
  }

  /** The scan stops at row `k` with a `ValueError`: its time does not parse. */
  predicate ScanFailsAt(e: Span, booked: seq<Appointment>, k: nat)
    requires k < |booked|
  {
    ScanPasses(e, booked, k) && ParseTime(booked[k].time).None?
  }

  /** The scan stops at row `k` by finding an overlap there. */
  predicate ScanHitsAt(e: Span, booked: seq<Appointment>, k: nat)
    requires k < |booked|
  {
    ScanPasses(e, booked, k) && ParseTime(booked[k].time).Some? && Overlaps(e, SpanOf(booked[k]))
  }

  /** Testing `e` against the booked rows raises: an unparsable row is reached
      before any overlap is found. */
  predicate ScanFails(e: Span, booked: seq<Appointment>) {
    exists k :: 0 <= k < |booked| && ScanFailsAt(e, booked, k)
  }

  /** The scan stops at most once: a row that stops it is never passed, and no
      earlier row stops it. */
  lemma ScanStopsOnce(e: Span, booked: seq<Appointment>, k: nat)
    requires k < |booked| && ScanPasses(e, booked, k)
    requires ParseTime(booked[k].time).Some? ==> Overlaps(e, SpanOf(booked[k]))
    ensures forall j :: k < j <= |booked| ==> !ScanPasses(e, booked, j)
    ensures forall j :: 0 <= j < k ==> !ScanFailsAt(e, booked, j) && !ScanHitsAt(e, booked, j)
  {
  }

  /** When every row parses, the scan gets past all of them exactly when the
      interval is clear of every booked span, and it never raises. */
  lemma ScanPassesIffClear(e: Span, booked: seq<Appointment>)
    requires AllTimesParse(booked)
    ensures ScanPasses(e, booked, |booked|) <==> Clear(e, BookedSpans(booked))
    ensures !ScanFails(e, booked)
  {
    if ScanPasses(e, booked, |booked|) {
      PassesThenClear(e, booked);
    }
    if Clear(e, BookedSpans(booked)) {
      ClearThenPasses(e, booked);
    }
  }

  lemma PassesThenClear(e: Span, booked: seq<Appointment>)
    requires AllTimesParse(booked) && ScanPasses(e, booked, |booked|)
    ensures Clear(e, BookedSpans(booked))
  {
  }

  lemma ClearThenPasses(e: Span, booked: seq<Appointment>)
    requires AllTimesParse(booked) && Clear(e, BookedSpans(booked))
    ensures ScanPasses(e, booked, |booked|)
  {
  }

  /** A scan that stops at an overlap reports it and does not raise. */
  lemma ScanHitOutcome(e: Span, booked: seq<Appointment>, k: nat)
    requires k < |booked| && ScanHitsAt(e, booked, k)
    ensures !ScanFails(e, booked) && !ScanPasses(e, booked, |booked|)
    ensures exists j :: 0 <= j < |booked| && ScanHitsAt(e, booked, j)
    ensures AllTimesParse(booked) ==> !Clear(e, BookedSpans(booked))
  {
    ScanStopsOnce(e, booked, k);
    if AllTimesParse(booked) {
      ScanPassesIffClear(e, booked);
    }
  }

  /** A scan that stops at an unparsable row raises and reports nothing. */
  lemma ScanFailOutcome(e: Span, booked: seq<Appointment>, k: nat)
    requires k < |booked| && ScanFailsAt(e, booked, k)
    ensures ScanFails(e, booked) && !ScanPasses(e, booked, |booked|) && !AllTimesParse(booked)
    ensures !exists j :: 0 <= j < |booked| && ScanHitsAt(e, booked, j)
  {
    ScanStopsOnce(e, booked, k);
  }

  /** A scan that gets past every row neither raises nor finds an overlap. */
  lemma ScanPassOutcome(e: Span, booked: seq<Appointment>)
    requires ScanPasses(e, booked, |booked|)
    ensures AllTimesParse(booked) && Clear(e, BookedSpans(booked))
    ensures !ScanFails(e, booked)
    ensures !exists j :: 0 <= j < |booked| && ScanHitsAt(e, booked, j)
  {
    ScanPassesIffClear(e, booked);
  }

  /** A candidate the loop accepts: its own end stays within 20:00 and the scan
      of the booked rows gets past every one of them. */
  predicate Passable(x: int, dur: int, buffer: nat, booked: seq<Appointment>) {
    x + dur <= CloseMinute && ScanPasses(Effective(x, dur, buffer), booked, |booked|)
  }

  /** A candidate on which the loop raises: its own end stays within 20:00, so
      its scan runs, and the scan reaches an unparsable row. */
  predicate Raises(x: int, dur: int, buffer: nat, booked: seq<Appointment>) {
    x + dur <= CloseMinute && ScanFails(Effective(x, dur, buffer), booked)
  }

  /** The candidates among `cands` that the loop accepts, in their order. */
  function KeepPassable(cands: seq<nat>, dur: int, buffer: nat, booked: seq<Appointment>): (r: seq<nat>)
    ensures |r| <= |cands|
  {
    if cands == [] then []
    else
      var kept := KeepPassable(cands[..|cands| - 1], dur, buffer, booked);
      var last := cands[|cands| - 1];
      if Passable(last, dur, buffer, booked) then kept + [last] else kept
  }

  /** The loop keeps exactly the accepted candidates, in their order. */
  lemma {:induction false} KeepPassableSpec(cands: seq<nat>, dur: int, buffer: nat, booked: seq<Appointment>)
    ensures forall x :: x in KeepPassable(cands, dur, buffer, booked) <==> x in cands && Passable(x, dur, buffer, booked)
    ensures StrictlyIncreasing(cands) ==> StrictlyIncreasing(KeepPassable(cands, dur, buffer, booked))
  {
    if cands != [] {
      var init := cands[..|cands| - 1];
      var last := cands[|cands| - 1];
      assert cands == init + [last];
      KeepPassableSpec(init, dur, buffer, booked);
      var kept := KeepPassable(init, dur, buffer, booked);
      if Passable(last, dur, buffer, booked) {
        IncreasingSnoc(cands, kept);
      }
    }
  }

  /** When every booked row parses, the candidates the loop accepts are the
      bookable ones against the booked spans. */
  lemma {:induction false} KeepPassableIsKeepBookable(cands: seq<nat>, dur: int, buffer: nat, booked: seq<Appointment>)
    requires AllTimesParse(booked)
    ensures KeepPassable(cands, dur, buffer, booked) == KeepBookable(cands, dur, buffer, BookedSpans(booked))
  {
    if cands != [] {
      var last := cands[|cands| - 1];
      KeepPassableIsKeepBookable(cands[..|cands| - 1], dur, buffer, booked);
      ScanPassesIffClear(Effective(last, dur, buffer), booked);
    }
  }

  /** Some candidate among `cands` makes the loop raise. */
  predicate AnyRaises(cands: seq<nat>, dur: int, buffer: nat, booked: seq<Appointment>) {
    cands != [] &&
      (AnyRaises(cands[..|cands| - 1], dur, buffer, booked) || Raises(cands[|cands| - 1], dur, buffer, booked))
  }

  lemma {:induction false} AnyRaisesSpec(cands: seq<nat>, dur: int, buffer: nat, booked: seq<Appointment>)
    ensures AnyRaises(cands, dur, buffer, booked) <==> exists x :: x in cands && Raises(x, dur, buffer, booked)
  {
    if cands != [] {
      var init, last := cands[..|cands| - 1], cands[|cands| - 1];
      AnyRaisesSpec(init, dur, buffer, booked);
      assert cands == init + [last];
      assert last in cands;
      assert forall x :: x in cands <==> x in init || x == last;
    }
  }

  /** One step of the candidate loop extends the accepted prefix by at most the
      next candidate, and raises exactly when it did or the next one does. */
  lemma Advance(starts: seq<nat>, k: nat, dur: int, buffer: nat, booked: seq<Appointment>, kept: seq<nat>)
    requires k < |starts|
    requires kept == KeepPassable(starts[..k], dur, buffer, booked)
    ensures KeepPassable(starts[..k + 1], dur, buffer, booked) ==
      if Passable(starts[k], dur, buffer, booked) then kept + [starts[k]] else kept
    ensures AnyRaises(starts[..k + 1], dur, buffer, booked) <==>
      AnyRaises(starts[..k], dur, buffer, booked) || Raises(starts[k], dur, buffer, booked)
  {
    assert starts[..k + 1][..k] == starts[..k];
  }

  /** Appending the next formatted candidate formats the extended prefix. */
  lemma AdvanceFormatted(starts: seq<nat>, k: nat, kept: seq<nat>, available: seq<string>)
    requires k < |starts|
    requires available == FormatAll(kept)
    ensures available + [FormatAll(starts)[k]] == FormatAll(kept + [starts[k]])
  {
    FormatAllAt(starts, k);
    FormatAllSnoc(kept, starts[k]);
  }

  /** A formatted candidate parses back to its minute count, unless its hour
      numeral is too long for `int()`. */
  lemma ReadsBack(xs: seq<nat>, k: nat)
    requires k < |xs|
    ensures ParseTime(FormatAll(xs)[k]) == if HourReadable(xs[k]) then Some(xs[k]) else None
  {
    FormatAllAt(xs, k);
    ParseFormat(xs[k]);
  }

  /** The inner loop of `generate_available_slots`: parse each booked row's
      time and test its interval against `e`, stopping at the first overlap.
      It answers `Some(true)` exactly when an overlapping row is reached, and
      `None`, the `ValueError`, exactly when an unparsable row is reached
      first; rows after the stopping row are never read. */
  method OverlapsBooked(e: Span, booked: seq<Appointment>) returns (r: Option<bool>)
    ensures r.None? <==> ScanFails(e, booked)
    ensures r == Some(true) <==> exists k :: 0 <= k < |booked| && ScanHitsAt(e, booked, k)
    ensures r == Some(false) <==> ScanPasses(e, booked, |booked|)
    ensures AllTimesParse(booked) ==> r == Some(!Clear(e, BookedSpans(booked)))
  {
    var overlap := false;
    var j := 0;
    while j < |booked| && !overlap
      invariant 0 <= j <= |booked|
      invariant ScanPasses(e, booked, j)
      invariant overlap ==> j < |booked| && ScanHitsAt(e, booked, j)
      decreases |booked| - j, !overlap
    {
      var bStart := ParseTime(booked[j].time);
      if bStart.None? {
        ScanFailOutcome(e, booked, j);
        return None;
      }
      var bEnd := bStart.value + booked[j].duration;
      if e.start < bEnd && e.end > bStart.value {
        overlap := true;
      } else {
        j := j + 1;
      }
    }
    if overlap {
      ScanHitOutcome(e, booked, j);
    } else {
      ScanPassOutcome(e, booked);
    }
    r := Some(overlap);
  }

  /** The body of the candidate loop of `generate_available_slots`: read the
      candidate back as minutes, drop it when its own end passes 20:00, widen
      it by `buffer` with the lower end clamped at midnight, and test it
      against the booked rows. `None` is a `ValueError` from either parse. */
  method CandidateAvailable(start: string, dur: int, buffer: nat, booked: seq<Appointment>)
    returns (r: Option<bool>)
    ensures ParseTime(start).None? ==> r.None?
    ensures ParseTime(start).Some? ==>
      && (r.None? <==> Raises(ParseTime(start).value, dur, buffer, booked))
      && (r == Some(true) <==> Passable(ParseTime(start).value, dur, buffer, booked))
    ensures ParseTime(start).Some? && ParseTime(start).value + dur > CloseMinute ==> r == Some(false)
    ensures ParseTime(start).Some? && AllTimesParse(booked) ==>
      r == Some(Bookable(ParseTime(start).value, dur, buffer, BookedSpans(booked)))
  {
    var parsed := ParseTime(start);
    if parsed.None? {
      return None;
    }
    var startMin := parsed.value;
    var endMin := startMin + dur;
    if endMin > CloseMinute {
      return Some(false);
    }
    var effStart := startMin - buffer;
    var effEnd := endMin + buffer;
    if effStart < 0 {
      effStart := 0;
    }
    assert Effective(startMin, dur, buffer) == Span(effStart, effEnd);
    var overlap := OverlapsBooked(Span(effStart, effEnd), booked);
    if overlap.None? {
      return None;
    }
    r := Some(!overlap.value);
  }

  /** One pass of the candidate loop of `generate_available_slots`: test the
      candidate `possible[k]` and append it to the labels accepted so far when
      it is accepted. `None` when the test raises. */
  method CandidateStep(starts: seq<nat>, possible: seq<string>, k: nat, dur: int, buffer: nat,
                       booked: seq<Appointment>, available: seq<string>)
    returns (r: Option<seq<string>>)
    requires possible == FormatAll(starts) && k < |starts| && HourReadable(starts[k])
    requires available == FormatAll(KeepPassable(starts[..k], dur, buffer, booked))
    ensures r.None? <==> Raises(starts[k], dur, buffer, booked)
    ensures r.Some? ==> r.value == FormatAll(KeepPassable(starts[..k + 1], dur, buffer, booked))
  {
    ReadsBack(starts, k);
    var ok := CandidateAvailable(possible[k], dur, buffer, booked);
    if ok.None? {
      return None;
    }
    var kept := KeepPassable(starts[..k], dur, buffer, booked);
    Advance(starts, k, dur, buffer, booked, kept);
    if ok.value {
      AdvanceFormatted(starts, k, kept, available);
      r := Some(available + [possible[k]]);
    } else {
      r := Some(available);
    }
  }

  /** `generate_available_slots` on the rows booked for the requested day:
      the candidates "08:00" to "19:30" that `CandidateAvailable` accepts, in
      order. It raises exactly when some candidate that fits the day reaches an
      unparsable booked row before any overlap; otherwise it returns the
      accepted candidates, which, when every booked time parses, are exactly
      the available starts. */
  method GenerateAvailableSlots(dur: int, sessionType: string, booked: seq<Appointment>)
    returns (r: Option<seq<string>>)
    ensures r.None? <==>
      exists x :: x in CandidateStarts() && Raises(x, dur, SessionBuffer(sessionType), booked)
    ensures r.Some? ==>
      r.value == FormatAll(KeepPassable(CandidateStarts(), dur, SessionBuffer(sessionType), booked))
    ensures AllTimesParse(booked) ==>
      r == Some(FormatAll(AvailableStarts(dur, SessionBuffer(sessionType), BookedSpans(booked))))
  {
    var starts := CandidateStarts();
    var possible := FormatAll(starts);
    var buffer := SessionBuffer(sessionType);
    var available: seq<string> := [];
    var k := 0;
    assert starts[..0] == [];
    while k < |possible|
      invariant 0 <= k <= |possible|
      invariant available == FormatAll(KeepPassable(starts[..k], dur, buffer, booked))
      invariant !AnyRaises(starts[..k], dur, buffer, booked)
    {
      assert starts[k] in starts;
      ParseFormat(starts[k]);
      var next := CandidateStep(starts, possible, k, dur, buffer, booked, available);
      if next.None? {
        return None;
      }
      Advance(starts, k, dur, buffer, booked, KeepPassable(starts[..k], dur, buffer, booked));
      available := next.value;
      k := k + 1;
    }
    assert starts[..|possible|] == starts;
    AnyRaisesSpec(starts, dur, buffer, booked);
    if AllTimesParse(booked) {
      KeepPassableIsKeepBookable(starts, dur, buffer, booked);
    }
    r := Some(available);
  }
}

=== FILE: availability_laws.dfy ===
/** Properties of the availability computation that relate several queries:
    the travel buffer and extra bookings only ever remove start times, an
    empty day offers every start that fits, touching intervals do not
    conflict, booked rows are never widened whatever their lesson type, and
    an overlap found first keeps a later unparsable row from being read. */
module AvailabilityLaws {
  import opened Maybe
  import opened Clock
  import opened BookingStore
  import opened Availability

  /** Two strictly increasing sequences with the same elements are equal. */
  lemma {:induction false} IncreasingSameMembers(a: seq<int>, b: seq<int>)
    requires StrictlyIncreasing(a) && StrictlyIncreasing(b)
    requires forall x :: x in a <==> x in b
    ensures a == b
  {
    EmptyMirror(a, b);
    if a != [] {
      SameHeads(a, b);
      SameTails(a, b);
      IncreasingSameMembers(a[1..], b[1..]);
      assert a == [a[0]] + a[1..] && b == [b[0]] + b[1..];
    }
  }

  /** Increasing sequences with the same elements start with the same, least, element. */
  lemma SameHeads(a: seq<int>, b: seq<int>)
    requires StrictlyIncreasing(a) && StrictlyIncreasing(b)
    requires forall x :: x in a <==> x in b
    requires a != [] && b != []
    ensures a[0] == b[0]
  {
    assert a[0] in a;
    assert b[0] in b;
    var i :| 0 <= i < |b| && b[i] == a[0];
    var j :| 0 <= j < |a| && a[j] == b[0];
    assert b[0] <= b[i];
    assert a[0] <= a[j];
  }

  /** Removing the common least element leaves the same elements. */
  lemma SameTails(a: seq<int>, b: seq<int>)
    requires StrictlyIncreasing(a) && StrictlyIncreasing(b)
    requires forall x :: x in a <==> x in b
    requires a != [] && b != [] && a[0] == b[0]
    ensures StrictlyIncreasing(a[1..]) && StrictlyIncreasing(b[1..])
    ensures forall x :: x in a[1..] <==> x in b[1..]
  {
    forall x ensures x in a[1..] ==> x in b[1..] {
      if x in a[1..] {
        var i :| 1 <= i < |a| && a[i] == x;
        assert x in b;
        var j :| 0 <= j < |b| && b[j] == x;
        assert j != 0;
        assert b[1..][j - 1] == x;
      }
    }
    forall x ensures x in b[1..] ==> x in a[1..] {
      if x in b[1..] {
        var i :| 1 <= i < |b| && b[i] == x;
        assert x in a;
        var j :| 0 <= j < |a| && a[j] == x;
        assert j != 0;
        assert a[1..][j - 1] == x;
      }
    }
  }

  /** Sequences with the same elements are empty together. */
  lemma EmptyMirror(a: seq<int>, b: seq<int>)
    requires forall x :: x in a <==> x in b
    ensures a == [] <==> b == []
  {
    if |b| > 0 {
      var y := b[0];
      assert y in b;
      assert y in a;
    }
    if |a| > 0 {
      var y := a[0];
      assert y in a;
      assert y in b;
    }
  }

  /** A wider buffer never offers more: every start offered with buffer `wide`
      is offered with any narrower buffer. */
  lemma BufferMonotone(dur: int, narrow: nat, wide: nat, booked: seq<Span>)
    requires narrow <= wide
    ensures forall x :: x in AvailableStarts(dur, wide, booked) ==> x in AvailableStarts(dur, narrow, booked)
  {
  }

  /** A "Student Location" query offers a subset of what the same query offers
      for any other session type. */
  lemma StudentLocationOffersLess(dur: int, other: string, booked: seq<Span>)
    ensures forall x :: x in AvailableStarts(dur, SessionBuffer(StudentLocation), booked) ==>
      x in AvailableStarts(dur, SessionBuffer(other), booked)
  {
    BufferMonotone(dur, SessionBuffer(other), SessionBuffer(StudentLocation), booked);
  }

  /** More bookings never offer more: with every booked interval still booked,
      no start time becomes available. */
  lemma MoreBookingsOfferLess(dur: int, buffer: nat, booked: seq<Span>, more: seq<Span>)
    requires forall i :: 0 <= i < |booked| ==> booked[i] in more
    ensures forall x :: x in AvailableStarts(dur, buffer, more) ==> x in AvailableStarts(dur, buffer, booked)
  {
    forall x | x in AvailableStarts(dur, buffer, more)
      ensures x in AvailableStarts(dur, buffer, booked)
    {
      forall i | 0 <= i < |booked|
        ensures !(Max0(x - buffer) < booked[i].end && x + dur + buffer > booked[i].start)
      {
        var j :| 0 <= j < |more| && more[j] == booked[i];
      }
    }
  }

  /** Adding one booking never adds an available start. */
  lemma AddedBookingOffersLess(dur: int, buffer: nat, booked: seq<Span>, extra: Span)
    ensures forall x :: x in AvailableStarts(dur, buffer, booked + [extra]) ==> x in AvailableStarts(dur, buffer, booked)
  {
    MoreBookingsOfferLess(dur, buffer, booked, booked + [extra]);
  }

  /** On a day without bookings every half-hour start whose own end is within
      20:00 is offered, whatever the buffer. */
  lemma EmptyDayOffersEveryFit(dur: int, buffer: nat)
    ensures forall x :: x in AvailableStarts(dur, buffer, []) <==>
      x in CandidateStarts() && x + dur <= CloseMinute
  {
  }

  /** For an hour-long session on an empty day the offer is exactly
      08:00, 08:30, ..., 19:00: twenty-three starts. */
  lemma EmptyDayHourLong(buffer: nat)
    ensures AvailableStarts(60, buffer, []) == Range(OpenMinute, 19 * 60 + 30)
    ensures |AvailableStarts(60, buffer, [])| == 23
    ensures AvailableStarts(60, buffer, [])[0] == 8 * 60
    ensures AvailableStarts(60, buffer, [])[22] == 19 * 60
  {
    var r := Range(OpenMinute, 19 * 60 + 30);
    HourLongRange();
    EmptyDayOffersEveryFit(60, buffer);
    IncreasingSameMembers(AvailableStarts(60, buffer, []), r);
  }

  /** The half-hour starts from 08:00 up to 19:00 inclusive, in order. */
  lemma HourLongRange()
    ensures var r := Range(OpenMinute, 19 * 60 + 30);
      && StrictlyIncreasing(r)
      && forall x :: x in r <==> x in CandidateStarts() && x + 60 <= CloseMinute
  {
    HourLongRangeSound();
    HourLongRangeComplete();
  }

  lemma HourLongRangeSound()
    ensures forall x :: x in Range(OpenMinute, 19 * 60 + 30) ==> x in CandidateStarts() && x + 60 <= CloseMinute
  {
    var r := Range(OpenMinute, 19 * 60 + 30);
    forall x | x in r ensures x in CandidateStarts() && x + 60 <= CloseMinute {
      var i :| 0 <= i < |r| && r[i] == x;
      assert x == OpenMinute + SlotStep * i;
    }
  }

  lemma HourLongRangeComplete()
    ensures forall x :: x in CandidateStarts() && x + 60 <= CloseMinute ==> x in Range(OpenMinute, 19 * 60 + 30)
  {
    var r := Range(OpenMinute, 19 * 60 + 30);
    assert |r| == 23 by {
      assert r[|r| - 1] == OpenMinute + SlotStep * (|r| - 1);
    }
    forall x | x in CandidateStarts() && x + 60 <= CloseMinute ensures x in r {
      var i := (x - OpenMinute) / SlotStep;
      assert r[i] == x;
    }
  }

  /** The labels of that offer run from "08:00" to "19:00". */
  lemma EmptyDayHourLongLabels(buffer: nat)
    ensures |FormatAll(AvailableStarts(60, buffer, []))| == 23
    ensures FormatAll(AvailableStarts(60, buffer, []))[0] == "08:00"
    ensures FormatAll(AvailableStarts(60, buffer, []))[22] == "19:00"
  {
    EmptyDayHourLong(buffer);
    FormatAllAt(AvailableStarts(60, buffer, []), 0);
    FormatAllAt(AvailableStarts(60, buffer, []), 22);
    EightOClockLabel();
    SevenPmLabel();
  }

  lemma EightOClockLabel()
    ensures FormatTime(8 * 60) == "08:00"
  {
    assert Pad2(8) == "08";
    assert Pad2(0) == "00";
  }

  lemma SevenPmLabel()
    ensures FormatTime(19 * 60) == "19:00"
  {
    assert Pad2(0) == "00";
    assert Decimal(19) == Decimal(1) + [DigitChar(9)];
    assert Pad2(19) == "19";
  }

  /** Every offered label is a well-formed "HH:MM" time that reads back as its start. */
  lemma OfferedLabelsReadBack(dur: int, buffer: nat, booked: seq<Span>)
    ensures var av := AvailableStarts(dur, buffer, booked);
      forall i :: 0 <= i < |av| ==>
        WellFormedTime(FormatAll(av)[i]) && ParseTime(FormatAll(av)[i]) == Some(av[i])
  {
    var av := AvailableStarts(dur, buffer, booked);
    forall i | 0 <= i < |av|
      ensures WellFormedTime(FormatAll(av)[i]) && ParseTime(FormatAll(av)[i]) == Some(av[i])
    {
      assert av[i] in av;
      FormatAllAt(av, i);
      ParseFormat(av[i]);
    }
  }

  /** A start whose own end passes 20:00 is never offered, whatever the buffer
      and the bookings. */
  lemma PastCloseNeverOffered(dur: int, buffer: nat, booked: seq<Span>, s: int)
    requires s + dur > CloseMinute
    ensures s !in AvailableStarts(dur, buffer, booked)
  {
  }

  /** Only the unwidened end is held against 20:00: a "Student Location" hour
      at 19:00 is offered on an empty day though its travel runs to 20:30. */
  lemma BufferMaySpillPastClose()
    ensures 19 * 60 in AvailableStarts(60, SessionBuffer(StudentLocation), [])
    ensures Effective(19 * 60, 60, SessionBuffer(StudentLocation)).end > CloseMinute
  {
  }

  /** Half-open intervals: without a buffer, a slot that ends exactly when a
      booking starts, or starts exactly when it ends, is offered. */
  lemma TouchingIsNotConflict(dur: int, s: int, b: Span)
    requires s in CandidateStarts() && s + dur <= CloseMinute
    requires s + dur == b.start || s == b.end
    ensures s in AvailableStarts(dur, 0, [b])
  {
  }

  /** The row "10:00" lasting an hour occupies [600, 660). */
  lemma TenOClockHour(a: Appointment)
    requires a.time == "10:00" && a.duration == 60
    ensures ParseTime(a.time).Some?
    ensures SpanOf(a) == Span(600, 660)
  {
    assert "10:00" == "10" + ":" + "00";
    assert NumeralValue("10") == 10 by {
      assert "10"[..1] == "1";
    }
    assert NumeralValue("00") == 0 by {
      assert "00"[..1] == "0";
    }
    ParseJoined("10", "00");
  }

  /** With an hour booked from 10:00, a half-hour "Online" query keeps 09:30
      (it ends as the booking starts) and 11:00 (it starts as the booking
      ends) and drops 10:00 and 10:30. */
  lemma OnlineAroundTenOClock()
    ensures var av := AvailableStarts(30, SessionBuffer("Online"), [Span(600, 660)]);
      && 570 in av && 600 !in av && 630 !in av && 660 in av
  {
    var booked := [Span(600, 660)];
    assert Overlaps(Effective(600, 30, 0), booked[0]);
    assert Overlaps(Effective(630, 30, 0), booked[0]);
  }

  /** The same query for "Student Location" widens each candidate by half an
      hour: 09:30 and 11:00 are dropped, 09:00 and 11:30 are kept. */
  lemma StudentLocationAroundTenOClock()
    ensures var av := AvailableStarts(30, SessionBuffer(StudentLocation), [Span(600, 660)]);
      && 570 !in av && 660 !in av && 540 in av && 690 in av
  {
    var booked := [Span(600, 660)];
    assert Overlaps(Effective(570, 30, TravelBuffer), booked[0]);
    assert Overlaps(Effective(660, 30, TravelBuffer), booked[0]);
  }

  /** Only the candidate is widened: an hour booked from 10:00 by a
      "Student Location" lesson still lets an "Online" half hour start at
      09:30 or at 11:00, right against it. */
  lemma BookedStudentLocationNotWidened(a: Appointment)
    requires a.time == "10:00" && a.duration == 60 && a.lessonType == StudentLocation
    ensures AllTimesParse([a])
    ensures var av := AvailableStarts(30, SessionBuffer("Online"), BookedSpans([a]));
      570 in av && 660 in av
  {
    TenOClockHour(a);
    assert BookedSpans([a]) == [Span(600, 660)];
    OnlineAroundTenOClock();
  }

  /** The time "xx" has no colon, so `time_to_minutes` raises on it. */
  lemma NoColonRaises()
    ensures ParseTime("xx").None?
  {
    SplitColonFree("xx");
  }

  /** `int()` refuses an hour of more than `MaxIntDigits` digits, so a stored
      row whose time is, say, 4301 ones followed by ":00" makes every
      candidate that fits the day raise: the day's query is an error, not a
      list. */
  lemma OverlongRowRaises(h: string, a: Appointment, dur: int, buffer: nat)
    requires IsNumeral(h) && |h| > MaxIntDigits && a.time == h + ":00"
    ensures ParseTime(a.time).None? && !AllTimesParse([a])
    ensures forall x :: x + dur <= CloseMinute ==> Raises(x, dur, buffer, [a])
  {
    OverlongHourRejected(h);
    forall x | x + dur <= CloseMinute
      ensures Raises(x, dur, buffer, [a])
    {
      assert ScanFailsAt(Effective(x, dur, buffer), [a], 0);
    }
  }

  /** An overlap stops the scan before a later row is read: with an hour booked
      from 10:00 followed by a row whose time does not parse, testing 10:00 to
      10:30 finds the overlap and does not raise. */
  lemma OverlapStopsBeforeUnparsableRow(a: Appointment, b: Appointment)
    requires a.time == "10:00" && a.duration == 60 && b.time == "xx"
    ensures ParseTime(b.time).None?
    ensures ScanHitsAt(Span(600, 630), [a, b], 0)
    ensures !ScanFails(Span(600, 630), [a, b])
  {
    TenOClockHour(a);
    NoColonRaises();
    ScanStopsOnce(Span(600, 630), [a, b], 0);
  }

  /** Nothing is kept when no candidate is accepted. */
  lemma {:induction false} KeepPassableEmpty(cands: seq<nat>, dur: int, buffer: nat, booked: seq<Appointment>)
    requires forall x :: x in cands ==> !Passable(x, dur, buffer, booked)
    ensures KeepPassable(cands, dur, buffer, booked) == []
  {
    if cands != [] {
      assert cands[|cands| - 1] in cands;
      KeepPassableEmpty(cands[..|cands| - 1], dur, buffer, booked);
    }
  }

  /** A booking covering the whole day shields every later row: with "00:00"
      for 1440 minutes booked first and an unparsable row after it, no
      candidate raises and none is accepted, so the day's answer is the empty
      list rather than an error. */
  lemma WholeDayBookingShieldsLaterRows(a: Appointment, b: Appointment, dur: int, buffer: nat)
    requires a.time == "00:00" && a.duration == 1440 && b.time == "xx" && dur > 0
    ensures forall x :: x in CandidateStarts() ==> !Raises(x, dur, buffer, [a, b])
    ensures KeepPassable(CandidateStarts(), dur, buffer, [a, b]) == []
  {
    assert "00:00" == "00" + ":" + "00";
    assert NumeralValue("00") == 0 by {
      assert "00"[..1] == "0";
    }
    ParseJoined("00", "00");
    NoColonRaises();
    forall x | x in CandidateStarts()
      ensures !Raises(x, dur, buffer, [a, b]) && !Passable(x, dur, buffer, [a, b])
    {
      if x + dur <= CloseMinute {
        ScanStopsOnce(Effective(x, dur, buffer), [a, b], 0);
      }
    }
    KeepPassableEmpty(CandidateStarts(), dur, buffer, [a, b]);
  }

  /** The session type alone can decide between an answer and an error. With
      "00:00" for 480 minutes and "08:30" for 930 minutes booked ahead of a
      row whose time does not parse, an "Online" half hour at 08:00 touches
      both bookings, so its scan reaches the bad row and raises; every
      widened "Student Location" candidate hits one of the two bookings
      first, so that query never raises. */
  lemma SessionTypeDecidesRaise(a: Appointment, b: Appointment, c: Appointment)
    requires a.time == "00:00" && a.duration == 480
    requires b.time == "08:30" && b.duration == 930
    requires c.time == "xx"
    ensures Raises(OpenMinute, 30, SessionBuffer("Online"), [a, b, c])
    ensures forall x :: x in CandidateStarts() ==> !Raises(x, 30, SessionBuffer(StudentLocation), [a, b, c])
  {
    var rows := [a, b, c];
    MidnightAndHalfPastEight(a, b);
    NoColonRaises();
    var e := Effective(OpenMinute, 30, 0);
    assert ScanPasses(e, rows, 2);
    assert ScanFailsAt(e, rows, 2);
    forall x | x in CandidateStarts() ensures !Raises(x, 30, TravelBuffer, rows) {
      if x + 30 <= CloseMinute {
        var w := Effective(x, 30, TravelBuffer);
        if Overlaps(w, Span(0, 480)) {
          ScanStopsOnce(w, rows, 0);
        } else {
          assert ScanPasses(w, rows, 1);
          ScanStopsOnce(w, rows, 1);
        }
      }
    }
  }

  /** "00:00" for 480 minutes occupies [0, 480); "08:30" for 930 minutes occupies [510, 1440). */
  lemma MidnightAndHalfPastEight(a: Appointment, b: Appointment)
    requires a.time == "00:00" && a.duration == 480
    requires b.time == "08:30" && b.duration == 930
    ensures ParseTime(a.time).Some? && SpanOf(a) == Span(0, 480)
    ensures ParseTime(b.time).Some? && SpanOf(b) == Span(510, 1440)
  {
    assert WellFormedTime("00:00");
    assert WellFormedTime("08:30");
  }
}

=== FILE: clock.dfy ===
/** Times of day as the booking backend writes them: "HH:MM" strings on the
    wire and in the database, minutes since midnight inside the availability
    computation. `ParseTime` is `time_to_minutes`, `FormatTime` is
    `minutes_to_time`; the two are proved to be inverse of each other. */
module Clock {
  import opened Maybe

  /** An ASCII decimal digit. */
  predicate IsDigit(c: char) {
    '0' <= c <= '9'
  }

  /** A non-empty run of decimal digits. */
  predicate IsNumeral(s: string) {
    |s| > 0 && forall i :: 0 <= i < |s| ==> IsDigit(s[i])
  }

  /** CPython's default cap on the digits `int()` converts from a string
      (`sys.get_int_max_str_digits()`, from 3.11 and the 2022 security releases). */
  const MaxIntDigits: nat := 4300

  /** The strings `int()` accepts in this model: a digit run no longer than the
      cap; a longer one raises `ValueError`. */
  predicate IntAccepts(s: string) {
    IsNumeral(s) && |s| <= MaxIntDigits
  }

  function DigitChar(d: nat): (c: char)
    requires d < 10
    ensures IsDigit(c)
    ensures DigitValue(c) == d
  {
    (('0' as int) + d) as char
  }

  function DigitValue(c: char): nat
    requires IsDigit(c)
  {
    (c as int) - ('0' as int)
  }

  /** The number a run of digits denotes, most significant digit first. */
  function NumeralValue(s: string): nat
    requires forall i :: 0 <= i < |s| ==> IsDigit(s[i])
  {
    if |s| == 0 then 0
    else 10 * NumeralValue(s[..|s| - 1]) + DigitValue(s[|s| - 1])
  }

  lemma NumeralValueSnoc(s: string, c: char)
    requires forall i :: 0 <= i < |s| ==> IsDigit(s[i])
    requires IsDigit(c)
    ensures forall i :: 0 <= i < |s + [c]| ==> IsDigit((s + [c])[i])
    ensures NumeralValue(s + [c]) == 10 * NumeralValue(s) + DigitValue(c)
  {
    assert (s + [c])[..|s|] == s;
  }

  /** Python's `str(n)` for a natural number: the shortest decimal numeral of `n`. */
  function Decimal(n: nat): (s: string)
    ensures IsNumeral(s)
    ensures NumeralValue(s) == n
    ensures n < 10 ==> |s| == 1
    ensures ':' !in s
  {
    if n < 10 then [DigitChar(n)]
    else
      var prefix := Decimal(n / 10);
      NumeralValueSnoc(prefix, DigitChar(n % 10));
      prefix + [DigitChar(n % 10)]
  }

  /** Python's `f"{n:02d}"`: the decimal numeral of `n`, zero-padded to two digits. */
  function Pad2(n: nat): (s: string)
    ensures IsNumeral(s)
    ensures NumeralValue(s) == n
    ensures n < 100 ==> |s| == 2
    ensures ':' !in s
  {
    if n < 10 then
      NumeralValueSnoc(['0'], DigitChar(n));
      ['0'] + [DigitChar(n)]
    else Decimal(n)
  }

  /** Python's `str.split(":")`: the pieces between colons, in order; never empty. */
  function SplitColon(s: string): (parts: seq<string>)
    ensures |parts| >= 1
    ensures forall k :: 0 <= k < |parts| ==> ':' !in parts[k]
  {
    if s == [] then [""]
    else
      var rest := SplitColon(s[1..]);
      if s[0] == ':' then [""] + rest
      else [[s[0]] + rest[0]] + rest[1..]
  }

  /** Python's `":".join(parts)`. */
  function JoinColon(parts: seq<string>): string
    requires |parts| >= 1
  {
    if |parts| == 1 then parts[0] else parts[0] + ":" + JoinColon(parts[1..])
  }

  /** Splitting loses nothing: joining the pieces gives back the original string. */
  lemma {:induction false} JoinSplit(s: string)
    ensures JoinColon(SplitColon(s)) == s
  {
    if s != [] {
      var rest := SplitColon(s[1..]);
      JoinSplit(s[1..]);
      if s[0] == ':' {
        assert SplitColon(s) == [""] + rest;
        assert ([""] + rest)[1..] == rest;
      } else {
        var parts := SplitColon(s);
        assert parts == [[s[0]] + rest[0]] + rest[1..];
        if |rest| == 1 {
          assert JoinColon(parts) == [s[0]] + rest[0];
        } else {
          assert parts[1..] == rest[1..];
          assert JoinColon(rest) == rest[0] + ":" + JoinColon(rest[1..]);
          assert JoinColon(parts) == [s[0]] + rest[0] + ":" + JoinColon(rest[1..]);
        }
        assert s == [s[0]] + s[1..];
      }
    }
  }

  /** Joining colon-free pieces and splitting again gives back the pieces. */
  lemma {:induction false} SplitJoin(parts: seq<string>)
    requires |parts| >= 1
    requires forall k :: 0 <= k < |parts| ==> ':' !in parts[k]
    ensures SplitColon(JoinColon(parts)) == parts
  {
    if |parts| == 1 {
      SplitColonFree(parts[0]);
    } else {
      SplitJoin(parts[1..]);
      SplitAfter(parts[0], JoinColon(parts[1..]));
      assert [parts[0]] + parts[1..] == parts;
    }
  }

  lemma {:induction false} SplitColonFree(s: string)
    requires ':' !in s
    ensures SplitColon(s) == [s]
  {
    if s != [] {
      SplitColonFree(s[1..]);
      assert [s[0]] + s[1..] == s;
    }
  }

  lemma {:induction false} SplitAfter(a: string, b: string)
    requires ':' !in a
    ensures SplitColon(a + ":" + b) == [a] + SplitColon(b)
  {
    if a == [] {
      assert a + ":" + b == [':'] + b;
      assert ([':'] + b)[1..] == b;
    } else {
      var s := a + ":" + b;
      assert s[0] == a[0];
      assert s[1..] == a[1..] + ":" + b;
      SplitAfter(a[1..], b);
      assert [a[0]] + a[1..] == a;
    }
  }

  /** `time_to_minutes`: split on ':' into exactly two numerals and read them as
      hours and minutes; `None` where Python raises `ValueError`. */
  function ParseTime(t: string): (r: Option<nat>)
    ensures ':' !in t ==> r.None?
    ensures WellFormedTime(t) ==>
      r == Some((10 * DigitValue(t[0]) + DigitValue(t[1])) * 60 + 10 * DigitValue(t[3]) + DigitValue(t[4]))
  {
    SplitFacts(t);
    var parts := SplitColon(t);
    if |parts| == 2 && IntAccepts(parts[0]) && IntAccepts(parts[1]) then
      Some(NumeralValue(parts[0]) * 60 + NumeralValue(parts[1]))
    else None
  }

  /** How a colon-free string and a well-formed time split, and the values of
      the two halves of a well-formed time. */
  lemma SplitFacts(t: string)
    ensures ':' !in t ==> SplitColon(t) == [t]
    ensures WellFormedTime(t) ==>
      && SplitColon(t) == [t[..2], t[3..]]
      && IsNumeral(t[..2]) && IsNumeral(t[3..])
      && NumeralValue(t[..2]) == 10 * DigitValue(t[0]) + DigitValue(t[1])
      && NumeralValue(t[3..]) == 10 * DigitValue(t[3]) + DigitValue(t[4])
  {
    if ':' !in t {
      SplitColonFree(t);
    }
    if WellFormedTime(t) {
      SplitWellFormed(t);
    }
  }

  lemma SplitWellFormed(t: string)
    requires WellFormedTime(t)
    ensures SplitColon(t) == [t[..2], t[3..]]
    ensures IsNumeral(t[..2]) && IsNumeral(t[3..])
    ensures NumeralValue(t[..2]) == 10 * DigitValue(t[0]) + DigitValue(t[1])
    ensures NumeralValue(t[3..]) == 10 * DigitValue(t[3]) + DigitValue(t[4])
  {
    var hh, mm := t[..2], t[3..];
    assert hh[0] == t[0] && hh[1] == t[1];
    assert mm[0] == t[3] && mm[1] == t[4];
    TwoDigitValue(hh);
    TwoDigitValue(mm);
    SplitAtIndex(t, 2);
  }

  /** Two digits denote ten times the first plus the second. */
  lemma TwoDigitValue(s: string)
    requires |s| == 2 && IsDigit(s[0]) && IsDigit(s[1])
    ensures IsNumeral(s)
    ensures NumeralValue(s) == 10 * DigitValue(s[0]) + DigitValue(s[1])
  {
    assert s[..|s| - 1] == [s[0]];
    assert NumeralValue([s[0]]) == DigitValue(s[0]) by {
      assert [s[0]][..0] == [];
    }
  }

  /** Which strings `time_to_minutes` accepts, stated without splitting: exactly
      those with one colon between two digit runs that `int()` converts, read as
      hours and minutes. */
  lemma ParseTimeAccepts(t: string)
    ensures ParseTime(t).Some? <==>
      exists i :: 0 <= i < |t| && t[i] == ':' && IntAccepts(t[..i]) && IntAccepts(t[i + 1..])
    ensures forall i :: 0 <= i < |t| && t[i] == ':' && IntAccepts(t[..i]) && IntAccepts(t[i + 1..]) ==>
      ParseTime(t) == Some(NumeralValue(t[..i]) * 60 + NumeralValue(t[i + 1..]))
  {
    JoinSplit(t);
    SplitAtColonLemma(t);
  }

  /** A string with a colon between two colon-free halves splits into exactly
      those halves, and a string that splits into two pieces is those pieces
      joined by a colon. */
  lemma SplitAtColonLemma(t: string)
    ensures forall i :: 0 <= i < |t| && t[i] == ':' && IsNumeral(t[..i]) && IsNumeral(t[i + 1..]) ==>
      SplitColon(t) == [t[..i], t[i + 1..]]
    ensures |SplitColon(t)| == 2 ==>
      var parts := SplitColon(t);
      |parts[0]| < |t| && t[|parts[0]|] == ':' && t[..|parts[0]|] == parts[0] && t[|parts[0]| + 1..] == parts[1]
  {
    forall i | 0 <= i < |t| && t[i] == ':' && IsNumeral(t[..i]) && IsNumeral(t[i + 1..])
      ensures SplitColon(t) == [t[..i], t[i + 1..]]
    {
      SplitAtIndex(t, i);
    }
    if |SplitColon(t)| == 2 {
      TwoPiecesJoined(t);
    }
  }

  lemma SplitAtIndex(t: string, i: nat)
    requires i < |t| && t[i] == ':' && ':' !in t[..i] && ':' !in t[i + 1..]
    ensures SplitColon(t) == [t[..i], t[i + 1..]]
  {
    assert t == t[..i] + ":" + t[i + 1..];
    SplitAfter(t[..i], t[i + 1..]);
    SplitColonFree(t[i + 1..]);
  }

  lemma TwoPiecesJoined(t: string)
    requires |SplitColon(t)| == 2
    ensures var parts := SplitColon(t);
      |parts[0]| < |t| && t[|parts[0]|] == ':' && t[..|parts[0]|] == parts[0] && t[|parts[0]| + 1..] == parts[1]
  {
    var parts := SplitColon(t);
    JoinSplit(t);
    assert parts[1..] == [parts[1]];
    assert t == parts[0] + ":" + parts[1];
  }

  lemma NumeralHasNoColon(s: string)
    requires IsNumeral(s)
    ensures ':' !in s
  {
  }

  /** `minutes_to_time`: `divmod` by 60, each part zero-padded to two digits. */
  function FormatTime(m: nat): (r: string)
    ensures m < 6000 ==> WellFormedTime(r)
  {
    Pad2Digits(m / 60);
    Pad2Digits(m % 60);
    Pad2(m / 60) + ":" + Pad2(m % 60)
  }

  /** Below a hundred, zero padding gives two digits whose value is `n`. */
  lemma Pad2Digits(n: nat)
    ensures n < 100 ==>
      && |Pad2(n)| == 2 && IsDigit(Pad2(n)[0]) && IsDigit(Pad2(n)[1])
      && 10 * DigitValue(Pad2(n)[0]) + DigitValue(Pad2(n)[1]) == n
  {
    if n < 100 {
      TwoDigitValue(Pad2(n));
    }
  }

  /** A well-formed "HH:MM" time: two digits, a colon, two digits naming a minute below 60. */
  predicate WellFormedTime(t: string) {
    && |t| == 5
    && IsDigit(t[0]) && IsDigit(t[1]) && t[2] == ':' && IsDigit(t[3]) && IsDigit(t[4])
    && DigitValue(t[3]) < 6
  }

  /** Whether `int()` converts the hour numeral `FormatTime(m)` writes. */
  predicate HourReadable(m: nat) {
    |Pad2(m / 60)| <= MaxIntDigits
  }

  /** Round trip one way: reading back a formatted time gives the minute count,
      for every count below 100 hours and beyond, up to an hour numeral of
      `MaxIntDigits` digits; past that `int()` refuses the hours. */
  lemma ParseFormat(m: nat)
    ensures ParseTime(FormatTime(m)) == if HourReadable(m) then Some(m) else None
    ensures m < 6000 ==> HourReadable(m)
  {
    SplitJoined(Pad2(m / 60), Pad2(m % 60));
  }

  /** Two numerals joined by a colon parse as hours and minutes when `int()`
      converts both, and raise otherwise. */
  lemma ParseJoined(a: string, b: string)
    requires IsNumeral(a) && IsNumeral(b)
    ensures ParseTime(a + ":" + b) ==
      if |a| <= MaxIntDigits && |b| <= MaxIntDigits then Some(NumeralValue(a) * 60 + NumeralValue(b)) else None
  {
    SplitJoined(a, b);
    if |a| <= MaxIntDigits && |b| <= MaxIntDigits {
      ParseAccepted(a, b);
    }
  }

  lemma ParseAccepted(a: string, b: string)
    requires IntAccepts(a) && IntAccepts(b)
    requires SplitColon(a + ":" + b) == [a, b]
    ensures ParseTime(a + ":" + b) == Some(NumeralValue(a) * 60 + NumeralValue(b))
  {
  }

  lemma SplitJoined(a: string, b: string)
    requires IsNumeral(a) && IsNumeral(b)
    ensures SplitColon(a + ":" + b) == [a, b]
  {
    NumeralHasNoColon(a);
    NumeralHasNoColon(b);
    SplitAfter(a, b);
    SplitColonFree(b);
  }

  /** An hour numeral longer than `MaxIntDigits` makes `time_to_minutes` raise,
      however well-formed the rest is. */
  lemma OverlongHourRejected(a: string)
    requires IsNumeral(a) && |a| > MaxIntDigits
    ensures ParseTime(a + ":00").None?
  {
    var b := "00";
    assert IsNumeral(b) && |b| == 2;
    assert a + ":00" == a + ":" + b;
    ParseJoined(a, b);
  }

  /** Round trip the other way: a well-formed "HH:MM" string is reproduced exactly. */
  lemma FormatParse(t: string)
    requires WellFormedTime(t)
    ensures ParseTime(t).Some?
    ensures FormatTime(ParseTime(t).value) == t
  {
    var hh, mm := t[..2], t[3..];
    var h := TwoDigits(hh);
    var m := TwoDigits(mm);
    ParseWellFormed(t, h, m);
    DivModSixty(h, m);
    var n := h * 60 + m;
    assert FormatTime(n) == Pad2(h) + ":" + Pad2(m);
  }

  /** A well-formed time splits into its two-digit halves. */
  lemma ParseWellFormed(t: string, h: nat, m: nat)
    requires WellFormedTime(t)
    requires h == NumeralValue(t[..2]) && m == NumeralValue(t[3..])
    ensures ParseTime(t) == Some(h * 60 + m)
    ensures t == t[..2] + ":" + t[3..]
  {
    assert t == t[..2] + ":" + t[3..];
    ParseJoined(t[..2], t[3..]);
  }

  lemma DivModSixty(h: nat, m: nat)
    requires m < 60
    ensures (h * 60 + m) / 60 == h && (h * 60 + m) % 60 == m
  {
  }

  /** Two digits are reproduced by zero-padded formatting of their value. */
  lemma TwoDigits(s: string) returns (v: nat)
    requires |s| == 2 && IsDigit(s[0]) && IsDigit(s[1])
    ensures v == NumeralValue(s)
    ensures v == 10 * DigitValue(s[0]) + DigitValue(s[1])
    ensures Pad2(v) == s
  {
    var a, b := DigitValue(s[0]), DigitValue(s[1]);
    assert s[..1] == [s[0]];
    assert NumeralValue(s[..1]) == a;
    v := 10 * a + b;
    assert DigitChar(b) == s[1];
    if a == 0 {
      assert s[0] == '0';
      assert Pad2(v) == ['0'] + [DigitChar(b)];
    } else {
      assert DigitChar(a) == s[0];
      assert v / 10 == a && v % 10 == b;
      assert Decimal(a) == [s[0]];
      assert Decimal(v) == Decimal(a) + [DigitChar(b)];
    }
  }
}

=== FILE: maybe.dfy ===
/** The optional-value datatype shared by the other modules: `None` stands for a
    Python `None` result or for an operation that raised instead of returning. */
module Maybe {

  datatype Option<+T> = None | Some(value: T)
}

=== FILE: store.dfy ===
/** The appointments table and the three operations the rest of the backend
    performs on it: list one day's records, ask whether a (date, time,
    duration) slot is free, and insert a record under the table's
    `UNIQUE(date, time, duration)` constraint. The database is an in-memory
    sequence of records; each operation is one atomic step. */
module BookingStore {
  import opened Maybe

  /** A stored row. `id` is assigned by the store; `duration` is any integer,
      since the column accepts whatever was inserted. */
  datatype Appointment = Appointment(
    id: nat,
    name: string,
    email: string,
    phone: string,
    date: string,
    time: string,
    duration: int,
    lessonType: string)

  /** The values handed to an insert. `lessonType` is `None` when the request
      carried no lesson type: the column is `NOT NULL`, so such an insert fails. */
  datatype NewAppointment = NewAppointment(
    name: string,
    email: string,
    phone: string,
    date: string,
    time: string,
    duration: int,
    lessonType: Option<string>)

  /** The table: its rows in insertion order and the last id handed out. */
  datatype Store = Store(records: seq<Appointment>, lastId: nat)

  /** The columns of the uniqueness constraint. */
  datatype SlotKey = SlotKey(date: string, time: string, duration: int)

  function KeyOf(a: Appointment): SlotKey {
    SlotKey(a.date, a.time, a.duration)
  }

  /** No two rows share a (date, time, duration) triple. */
  predicate UniqueSlots(records: seq<Appointment>) {
    forall i, j :: 0 <= i < j < |records| ==> KeyOf(records[i]) != KeyOf(records[j])
  }

  /** Ids are positive, strictly increasing in insertion order, and never above the last one handed out. */
  predicate IdsIncreasing(records: seq<Appointment>, lastId: nat) {
    && (forall i, j :: 0 <= i < j < |records| ==> records[i].id < records[j].id)
    && (forall i :: 0 <= i < |records| ==> 0 < records[i].id <= lastId)
  }

  /** The invariant every reachable store satisfies. */
  predicate Valid(s: Store) {
    UniqueSlots(s.records) && IdsIncreasing(s.records, s.lastId)
  }

  /** A freshly created table. */
  function EmptyStore(): (s: Store)
    ensures Valid(s)
    ensures |s.records| == 0
  {
    Store([], 0)
  }

  /** Whether some row has exactly `key`, scanning the rows as the query does. */
  function Taken(records: seq<Appointment>, key: SlotKey): (r: bool)
    ensures r <==> exists i :: 0 <= i < |records| && KeyOf(records[i]) == key
  {
    if records == [] then false
    else KeyOf(records[0]) == key || Taken(records[1..], key)
  }

  /** `get_appointments_for_date`: the rows on `date`. The query has no
      `ORDER BY`, so the order is unspecified; this model lists them in
      insertion order, and the contract fixes only which rows appear and how
      often. */
  function ListForDate(s: Store, date: string): (r: seq<Appointment>)
    ensures forall a :: a in r <==> a in s.records && a.date == date
    ensures forall a :: multiset(r)[a] == if a.date == date then multiset(s.records)[a] else 0
    ensures |r| <= |s.records|
  {
    RowsOn(s.records, date)
  }

  /** The rows on `date`, each as often as it is stored, in their order. */
  function RowsOn(records: seq<Appointment>, date: string): (r: seq<Appointment>)
    ensures forall a :: a in r <==> a in records && a.date == date
    ensures forall a :: multiset(r)[a] == if a.date == date then multiset(records)[a] else 0
    ensures |r| <= |records|
  {
    if records == [] then []
    else
      assert records == [records[0]] + records[1..];
      (if records[0].date == date then [records[0]] else []) + RowsOn(records[1..], date)
  }

  /** `is_slot_available`: true exactly when no row matches all three fields. */
  function IsSlotAvailable(s: Store, date: string, time: string, duration: int): (r: bool)
    ensures r <==> forall i :: 0 <= i < |s.records| ==>
      !(s.records[i].date == date && s.records[i].time == time && s.records[i].duration == duration)
  {
    !Taken(s.records, SlotKey(date, time, duration))
  }

  /** What an insert reports. `SlotTaken` is the "already booked" message;
      `Failed` is the generic "failed to save" message. */
  datatype SaveOutcome = Saved(store: Store, appointment: Appointment) | SlotTaken | Failed

  /** The row an accepted insert stores for `req` under `id`. */
  predicate Stores(a: Appointment, req: NewAppointment, id: nat) {
    && a.id == id
    && a.name == req.name && a.email == req.email && a.phone == req.phone
    && a.date == req.date && a.time == req.time && a.duration == req.duration
    && req.lessonType == Some(a.lessonType)
  }

  /** `save_appointment`, reporting only a violated uniqueness constraint as
      "already booked". A missing lesson type violates `NOT NULL`, which the
      database checks before uniqueness; it is reported as a generic failure. */
  function Save(s: Store, req: NewAppointment): (r: SaveOutcome)
    ensures r.Failed? <==> req.lessonType.None?
    ensures r.SlotTaken? <==> req.lessonType.Some? && !IsSlotAvailable(s, req.date, req.time, req.duration)
    ensures r.Saved? ==>
      && r.store.records == s.records + [r.appointment]
      && r.store.lastId == s.lastId + 1
      && Stores(r.appointment, req, s.lastId + 1)
    ensures Valid(s) && r.Saved? ==> Valid(r.store)
  {
    match req.lessonType
    case None => Failed
    case Some(lessonType) =>
      if Taken(s.records, SlotKey(req.date, req.time, req.duration)) then SlotTaken
      else
        var a := Appointment(s.lastId + 1, req.name, req.email, req.phone, req.date, req.time, req.duration, lessonType);
        Saved(Store(s.records + [a], s.lastId + 1), a)
  }

  /** `save_appointment` as written: every integrity error, the `NOT NULL`
      violation of a missing lesson type included, is reported as "already booked". */
  function SaveAsWritten(s: Store, req: NewAppointment): (r: SaveOutcome)
    ensures !r.Failed?
    ensures r.SlotTaken? <==> req.lessonType.None? || !IsSlotAvailable(s, req.date, req.time, req.duration)
    ensures r.Saved? ==> r == Save(s, req)
  {
    match Save(s, req)
    case Failed => SlotTaken
    case other => other
  }

  /** The discrepancy: a request without a lesson type is told its slot is
      already booked although the slot is free. */
  lemma MissingLessonTypeReportedAsTaken()
    ensures
      var req := NewAppointment("Ann", "ann@example.org", "", "2025-09-28", "10:00", 60, None);
      && IsSlotAvailable(EmptyStore(), req.date, req.time, req.duration)
      && SaveAsWritten(EmptyStore(), req) == SlotTaken
      && Save(EmptyStore(), req) == Failed
  {
  }

  /** Saving reserves its slot and changes the availability of no other slot. */
  lemma SaveReservesOnlyItsSlot(s: Store, req: NewAppointment, date: string, time: string, duration: int)
    requires Save(s, req).Saved?
    ensures !IsSlotAvailable(Save(s, req).store, req.date, req.time, req.duration)
    ensures SlotKey(date, time, duration) != SlotKey(req.date, req.time, req.duration) ==>
      IsSlotAvailable(Save(s, req).store, date, time, duration) == IsSlotAvailable(s, date, time, duration)
  {
    var s' := Save(s, req).store;
    assert s'.records[|s.records|] == Save(s, req).appointment;
    assert forall i :: 0 <= i < |s.records| ==> s'.records[i] == s.records[i];
  }

  /** At most one winner: of two inserts for the same slot, the second is
      rejected as taken once the first has been admitted. */
  lemma SecondSaveOfSameSlotIsTaken(s: Store, a: NewAppointment, b: NewAppointment)
    requires Save(s, a).Saved?
    requires b.lessonType.Some?
    requires (b.date, b.time, b.duration) == (a.date, a.time, a.duration)
    ensures Save(Save(s, a).store, b) == SlotTaken
  {
    SaveReservesOnlyItsSlot(s, a, b.date, b.time, b.duration);
  }

  /** Uniqueness is on the exact triple: the same date and time with another
      duration is admitted, although the two bookings overlap in time. */
  lemma OtherDurationAdmitted(s: Store, a: NewAppointment, b: NewAppointment)
    requires Save(s, a).Saved?
    requires IsSlotAvailable(s, b.date, b.time, b.duration) && b.lessonType.Some?
    requires b.date == a.date && b.time == a.time && b.duration != a.duration
    ensures Save(Save(s, a).store, b).Saved?
  {
    SaveReservesOnlyItsSlot(s, a, b.date, b.time, b.duration);
  }

  /** A saved booking is listed back for its day with every submitted field unchanged. */
  lemma SavedIsListed(s: Store, req: NewAppointment)
    requires Save(s, req).Saved?
    ensures
      var a := Save(s, req).appointment;
      && a in ListForDate(Save(s, req).store, req.date)
      && Stores(a, req, s.lastId + 1)
  {
    var r := Save(s, req);
    assert r.store.records[|s.records|] == r.appointment;
  }
}

=== FILE: submission.dfy ===
/** The booking submission: the field checks of `submit_appointment`, then the
    availability pre-check, then the insert. A request with any field error
    never reaches the store. */
module Submission {
  import opened Maybe
  import opened BookingStore

  /** The JSON body of a submission. `duration` is `None` when absent or not an
      integer; an absent text field is the empty string, which the checks
      treat the same way as Python's falsy `None`. */
  datatype Request = Request(
    duration: Option<int>,
    lessonType: Option<string>,
    date: string,
    time: string,
    email: string,
    phone: string,
    name: string)

  /** The keys of the `errors` object of a rejected request. */
  datatype Field = Duration | DateTime | Contact | Name

  /** Python's `str.isspace` for one character: the characters `str.strip()` removes. */
  predicate IsSpace(c: char) {
    var n := c as int;
    || 9 <= n <= 13 || 28 <= n <= 32 || n == 0x85 || n == 0xA0 || n == 0x1680
    || 0x2000 <= n <= 0x200A || n == 0x2028 || n == 0x2029 || n == 0x202F
    || n == 0x205F || n == 0x3000
  }

  /** The number of leading whitespace characters of `s`. */
  function LeadingSpaces(s: string): (n: nat)
    ensures n <= |s|
    ensures forall k :: 0 <= k < n ==> IsSpace(s[k])
    ensures n < |s| ==> !IsSpace(s[n])
  {
    if s != [] && IsSpace(s[0]) then 1 + LeadingSpaces(s[1..]) else 0
  }

  /** The number of trailing whitespace characters of `s`. */
  function TrailingSpaces(s: string): (n: nat)
    ensures n <= |s|
    ensures forall k :: |s| - n <= k < |s| ==> IsSpace(s[k])
    ensures n < |s| ==> !IsSpace(s[|s| - n - 1])
  {
    if s != [] && IsSpace(s[|s| - 1]) then 1 + TrailingSpaces(s[..|s| - 1]) else 0
  }

  /** Python's `str.strip()`: the slice of `s` between its leading and trailing
      whitespace; empty exactly when `s` is all whitespace. */
  function Strip(s: string): (r: string)
    ensures var i := LeadingSpaces(s);
      && i + |r| <= |s| && r == s[i..i + |r|]
      && forall k :: i + |r| <= k < |s| ==> IsSpace(s[k])
    ensures r != [] ==> !IsSpace(r[0]) && !IsSpace(r[|r| - 1])
    ensures r == [] <==> forall k :: 0 <= k < |s| ==> IsSpace(s[k])
  {
    var i := LeadingSpaces(s);
    if i == |s| then [] else s[i..|s| - TrailingSpaces(s)]
  }

  /** The field checks, all of them evaluated: the set of keys of the `errors` object. */
  function Validate(req: Request): (errors: set<Field>)
    ensures Duration in errors <==> req.duration != Some(30) && req.duration != Some(60)
    ensures DateTime in errors <==> req.date == "" || req.time == ""
    ensures Contact in errors <==> req.email == "" && req.phone == ""
    ensures Name in errors <==> forall k :: 0 <= k < |req.name| ==> IsSpace(req.name[k])
  {
    (if req.duration in {Some(30), Some(60)} then {} else {Duration})
    + (if req.date == "" || req.time == "" then {DateTime} else {})
    + (if req.email == "" && req.phone == "" then {Contact} else {})
    + (if Strip(req.name) == "" then {Name} else {})
  }

  /** What the endpoint answers: the booked row, the field errors, the
      pre-check's "slot already booked", or the insert's own failure under the
      `database` key (`SlotTaken` is "already booked", `Failed` is "failed to
      save"). */
  datatype Response =
    | Booked(appointment: Appointment)
    | Invalid(errors: set<Field>)
    | SlotUnavailable
    | NotSaved(outcome: SaveOutcome)

  datatype Submitted = Submitted(store: Store, response: Response)

  /** The row a valid request asks to insert: the stripped name and the submitted fields. */
  function RowOf(req: Request, duration: int): NewAppointment {
    NewAppointment(Strip(req.name), req.email, req.phone, req.date, req.time, duration, req.lessonType)
  }

  /** `submit_appointment` as written: validate, pre-check the slot, then
      insert with `save_appointment` as written. The store changes only when
      the answer is `Booked`, and then by exactly the one new row. A valid
      request without a lesson type for a free slot is answered under
      `database` that the slot is already booked. */
  function Submit(s: Store, req: Request): (r: Submitted)
    ensures r.response.Invalid? <==> Validate(req) != {}
    ensures r.response.Invalid? ==> r.response.errors == Validate(req)
    ensures !r.response.Booked? ==> r.store == s
    ensures r.response.SlotUnavailable? <==>
      Validate(req) == {} && !IsSlotAvailable(s, req.date, req.time, req.duration.value)
    ensures r.response.NotSaved? <==>
      Validate(req) == {} && IsSlotAvailable(s, req.date, req.time, req.duration.value) && req.lessonType.None?
    ensures r.response.NotSaved? ==> r.response.outcome == SlotTaken
    ensures r.response.Booked? ==>
      && r.store.records == s.records + [r.response.appointment]
      && Stores(r.response.appointment, RowOf(req, req.duration.value), s.lastId + 1)
    ensures Valid(s) ==> Valid(r.store)
  {
    var errors := Validate(req);
    if errors != {} then Submitted(s, Invalid(errors))
    else
      var duration := req.duration.value;
      if !IsSlotAvailable(s, req.date, req.time, duration) then Submitted(s, SlotUnavailable)
      else
        match SaveAsWritten(s, RowOf(req, duration))
        case Saved(s', a) => Submitted(s', Booked(a))
        case other => Submitted(s, NotSaved(other))
  }

  /** `submit_appointment` on the corrected insert: the same checks, but a
      missing lesson type is answered with the generic storage failure. */
  function SubmitCorrected(s: Store, req: Request): (r: Submitted)
    ensures r.response.Invalid? <==> Validate(req) != {}
    ensures r.response.Invalid? ==> r.response.errors == Validate(req)
    ensures !r.response.Booked? ==> r.store == s
    ensures r.response.SlotUnavailable? <==>
      Validate(req) == {} && !IsSlotAvailable(s, req.date, req.time, req.duration.value)
    ensures r.response.NotSaved? <==>
      Validate(req) == {} && IsSlotAvailable(s, req.date, req.time, req.duration.value) && req.lessonType.None?
    ensures r.response.NotSaved? ==> r.response.outcome == Failed
    ensures r.response.Booked? ==>
      && r.store.records == s.records + [r.response.appointment]
      && Stores(r.response.appointment, RowOf(req, req.duration.value), s.lastId + 1)
    ensures Valid(s) ==> Valid(r.store)
  {
    var errors := Validate(req);
    if errors != {} then Submitted(s, Invalid(errors))
    else
      var duration := req.duration.value;
      if !IsSlotAvailable(s, req.date, req.time, duration) then Submitted(s, SlotUnavailable)
      else
        match Save(s, RowOf(req, duration))
        case Saved(s', a) => Submitted(s', Booked(a))
        case other => Submitted(s, NotSaved(other))
  }

  /** The two endpoints differ only on a missing lesson type: with one given,
      they answer alike and leave the same store. */
  lemma SubmitCorrectedAgrees(s: Store, req: Request)
    requires req.lessonType.Some?
    ensures Submit(s, req) == SubmitCorrected(s, req)
  {
  }

  /** The discrepancy at the endpoint: a valid request without a lesson type,
      for a free slot, is told the slot is already booked. */
  lemma MissingLessonTypeAnsweredAsBooked()
    ensures
      var req := Request(Some(60), None, "2025-09-28", "10:00", "ann@example.org", "", "Ann");
      && Validate(req) == {}
      && IsSlotAvailable(EmptyStore(), req.date, req.time, 60)
      && Submit(EmptyStore(), req).response == NotSaved(SlotTaken)
      && SubmitCorrected(EmptyStore(), req).response == NotSaved(Failed)
  {
    var req := Request(Some(60), None, "2025-09-28", "10:00", "ann@example.org", "", "Ann");
    assert !IsSpace('A');
    assert Validate(req) == {};
  }

  /** Of two valid submissions for the same slot, at most one is booked: once
      the first is booked, the second is answered "slot already booked". */
  lemma SameSlotOneWinner(s: Store, a: Request, b: Request)
    requires Submit(s, a).response.Booked?
    requires Validate(b) == {}
    requires b.date == a.date && b.time == a.time && b.duration == a.duration
    ensures Submit(Submit(s, a).store, b).response == SlotUnavailable
    ensures Submit(Submit(s, a).store, b).store == Submit(s, a).store
  {
    SaveReservesOnlyItsSlot(s, RowOf(a, a.duration.value), b.date, b.time, b.duration.value);
  }

  /** A valid submission for a free slot with a lesson type is booked. */
  lemma FreeSlotIsBooked(s: Store, req: Request)
    requires Validate(req) == {} && req.lessonType.Some?
    requires IsSlotAvailable(s, req.date, req.time, req.duration.value)
    ensures Submit(s, req).response.Booked?
  {
  }
}
